=== FILE: README.md ===
# Trace-sampling decisions of a tracing client, in Dafny

This project models how the Python tracing client decides whether a trace is
kept. The behaviour is the one its sampler test suite pins down,
`tests/tracer/test_sampler.py`: the model is of the behaviour of
`ddtrace/sampler.py`, taken from that test suite. Where the tests leave a detail open, the model
follows the library's documented behaviour, and the notes below say so.

The model has four parts:

- **Rates** (`RateSampling`, `rate_sampler.dfy`). A sample rate is a `real`.
  `RateSampler` refuses a negative rate with a ValueError and defaults to 1.0.
  The keep decision for a trace depends only on its trace id and the rate.
  Rate 1 keeps every trace and rate 0 keeps none. Between the two, the
  hash-based keep test is a parameter, `KeepTest = (nat, real) -> bool`.
- **Rules** (`Rules`, `sampling_rule.dfy`). A `SamplingRule` holds a rate in
  [0, 1], a service pattern and a name pattern. A pattern is one of:
  - the `NO_RULE` sentinel;
  - `None`;
  - an exact string;
  - a regular expression;
  - a callable.
  Regular expressions and callables are abstract string predicates, and a
  callable may raise. A rule matches when both patterns match. A pattern that
  raises counts as no match and logs one warning.
- **Per-service rates** (`ByService`, `rate_by_service.dfy`). A table keyed by
  `"service:<s>,env:<e>"`. Each update from the agent replaces the whole table.
- **Decision** (`Datadog`, `datadog_sampler.dfy`, and `RootSampling`,
  `root_sampling.dfy`). `DatadogSampler` finds the first matching rule, or
  else its default sampler. It records the rule's rate. A rule that keeps must
  still pass the rate limiter. The limiter is an oracle, `LimiterAnswer`,
  asked at most once. The decision is taken once per trace, at the root span.
  The trace is always written, whatever its priority.

`Scenarios` (`scenarios.dfy`) restates the test tables over the model.
`SamplingTypes` (`sampling_types.dfy`) holds the shared types:
`Option`, `Result`, the three configuration errors, and `Span`.

## Model

| member | source | states |
|---|---|---|
| RateSampling.SampleAtRate | tests/tracer/test_sampler.py:419-432 | rate 1 keeps every trace id and rate 0 keeps none; any other rate defers to the keep test on (trace id, rate) |
| RateSampling.NewRateSampler | tests/tracer/test_sampler.py:104-113 | construction fails exactly for a negative rate, with a ValueError carrying that rate; a rate in [0, 1] is stored unchanged, so 0 is not reset to 1; the stored rate always lies in [0, 1] |
| RateSampling.SetSampleRate | tests/tracer/test_sampler.py:48-62 | after `set_sample_rate(rate)` the sampler reports exactly that rate |
| RateSampling.Sample | tests/tracer/test_sampler.py:85-102 | a sampler at rate 1 keeps every span and at rate 0 none; at any other rate the span is kept iff the keep test accepts its trace id at the sampler's rate |
| RateSampling.LastSetRateWins | tests/tracer/test_sampler.py:48-62 | after any sequence of `set_sample_rate` calls the sampler reports the last rate set |
| RateSampling.SampleIsPerTrace | tests/tracer/test_sampler.py:85-102 | two spans with the same trace id get the same keep decision from a sampler |
| RateSampling.DefaultSamplerKeepsAll | tests/tracer/test_sampler.py:48-50 | a sampler built without arguments has rate 1.0 and keeps every trace |
| Rules.PatternMatches | tests/tracer/test_sampler.py:264-319 | the case table of one pattern: NO_RULE accepts everything; `None` accepts exactly an absent property; a string accepts exactly an equal property; a regex or callable gives its own answer; an absent property fails every other pattern, and a callable applied to it fails with a warning; a raising callable gives no match and a failure |
| Rules.NewSamplingRule | tests/tracer/test_sampler.py:203-261 | a rule is built iff its rate is in [0, 1], storing the rate and both patterns unchanged; otherwise a ValueError |
| Rules.Matches | tests/tracer/test_sampler.py:322-401 | a rule matches iff both its service and name patterns match; at most one warning is logged, only when there is no match, naming the failing field and property; there is no warning exactly when the service pattern did not fail and the name pattern, if tried, did not fail |
| Rules.MatchesIgnoresRate | tests/tracer/test_sampler.py:338-351 | changing a rule's rate, even to 0, never changes whether it matches |
| Rules.DefaultRuleMatchesAll | tests/tracer/test_sampler.py:241-245 | a rule given only a valid rate has NO_RULE patterns and matches every span without warnings |
| Rules.Sample | tests/tracer/test_sampler.py:419-432 | a rule of rate 1 keeps every trace and one of rate 0 keeps none; at any other rate the trace is kept iff the keep test accepts its trace id at the rule's rate, so every span of a trace gets the same decision |
| ByService.Key | tests/tracer/test_sampler.py:116-127 | the key is "service:" then the service (empty when absent), ",env:" and the env (empty when absent), with the service and env found in place; its inverse is `ParseKey`, see `KeyRoundTrip` |
| ByService.KeyRoundTrip | tests/tracer/test_sampler.py:116-127 | the key of a comma-free service and any env parses back to that service and env |
| ByService.KeyInjective | tests/tracer/test_sampler.py:116-127 | distinct comma-free services, or distinct envs, give distinct keys |
| ByService.KeyAmbiguousWithComma | tests/tracer/test_sampler.py:116-127 | a service containing ",env:" can share its key with another (service, env) pair |
| ByService.DefaultKeyIsEmptyKey | tests/tracer/test_sampler.py:116-127 | the key of no service and no env is `"service:,env:"`; an empty part is written like an absent one; a missing part defaults to "" |
| ByService.NewRateByServiceSampler | tests/tracer/test_sampler.py:435-441 | a new per-service sampler has a valid table holding only the default key at its rate, capped at 1.0 for a rate above 1; a negative rate is refused |
| ByService.SetSampleRate | tests/tracer/test_sampler.py:139-139 | setting one service's rate adds or replaces that key alone, capped at 1.0 for a rate above 1; a negative rate is refused with a ValueError carrying it; every other entry is left as it was |
| ByService.UpdateRateByServiceSampleRates | tests/tracer/test_sampler.py:165-200 | an update succeeds iff no rate is negative; it then installs a table built only from the sampler's own rate and the new rates, so nothing of the previous table survives; a negative rate gives a ValueError carrying one of the rates sent |
| ByService.UpdateMirrorsAgentRates | tests/tracer/test_sampler.py:165-200 | when the new rates lie in [0, 1] and include the default key, the table's key-to-rate map equals them exactly: missing keys are deleted and new keys are added |
| ByService.ReplayUpdates | tests/tracer/test_sampler.py:183-200 | applying a series of such updates in any order leaves the table equal to the last one |
| ByService.Sample | tests/tracer/test_sampler.py:147-159 | the span's (service, env) entry decides when present, else the default entry; that rate is the recorded agent decision and lies in [0, 1] |
| Datadog.CheckRules | tests/tracer/test_sampler.py:485-495 | the rules argument is accepted iff every entry is a rule, and then kept in the given order; otherwise a TypeError names the first bad position |
| Datadog.NewDatadogSampler | tests/tracer/test_sampler.py:435-495 | a TypeError for a non-rule entry, naming the first one, else a ValueError for a default rate outside [0, 1], else a sampler with the rules in order, the given rate limit or 100, and a default rule at the default rate or a per-service sampler whose own rate and default entry are both 1.0 |
| Datadog.FirstMatch | tests/tracer/test_sampler.py:552-627 | the position found is the first rule that matches: every earlier rule was asked and did not match; with no match every rule was asked and none matched; the warnings recorded are exactly those the rules asked logged, in order |
| Datadog.LoggedEmpty | tests/tracer/test_sampler.py:283 | no warning is recorded exactly when none of the rules asked logs one |
| Datadog.DecidingRule | tests/tracer/test_sampler.py:552-627 | the deciding rule is the first matching rule, else the default rule; there is none exactly when no rule matches and the default sampler is the per-service one |
| Datadog.Sample | tests/tracer/test_sampler.py:498-727 | the trace is always sampled for writing; the deciding rule's rate is the rule decision; the limiter is asked once iff a rule decided and kept; keep iff the rule keeps and the limiter allows; a limit decision exists only on keep; with no deciding rule the per-service sampler's answer decides and its rate is the agent decision, and only then is an agent decision present; the warnings recorded are those of the rule search |
| Datadog.RejectingRuleIgnoresLimiter | tests/tracer/test_sampler.py:703-727 | when the deciding rule rejects, the result is AUTO_REJECT with no limiter call, whatever the limiter would answer |
| Datadog.RuleRateEndpoints | tests/tracer/test_sampler.py:674-727 | a deciding rule of rate 0 rejects with no limiter call and no limit decision; one of rate 1 asks the limiter once and keeps iff it allows |
| Datadog.FirstMatchIgnoresLaterRules | tests/tracer/test_sampler.py:581-593 | once a rule matches, rules appended after the list are never asked |
| Datadog.AppendedRulesKeepDecision | tests/tracer/test_sampler.py:581-593 | appending rules after a matching rule leaves the sampler's decision unchanged |
| Datadog.UpdateRateByServiceSampleRates | tests/tracer/test_sampler.py:788-823 | the update is passed on to the per-service default sampler, which gets the replaced table and keeps its own configured rate; a negative rate among those sent is refused with a ValueError carrying it; with a default rule it changes nothing |
| RootSampling.StartSpan | tests/tracer/test_sampler.py:730-785 | a span started without a decision in its trace is sampled and counted as one sampler call; a later span leaves the trace's decision and count as they were |
| RootSampling.DecidedContextIsStable | tests/tracer/test_sampler.py:730-757 | once a trace is decided, starting any number of further spans changes nothing |
| RootSampling.SampledOnceAtRoot | tests/tracer/test_sampler.py:730-785 | over a whole trace the sampler is called exactly once, about the root span, with the limiter's answer at the root |
| RootSampling.Flush | tests/tracer/test_sampler.py:630-642 | a sampled trace hands all its spans, in order, to the writer, each with the trace's priority |
| RootSampling.TraceAlwaysWritten | tests/tracer/test_sampler.py:498-525 | under the rule-based sampler every span of a trace is written, kept or rejected, with the priority decided at the root |
| Scenarios.RuleRateTable | tests/tracer/test_sampler.py:203-238 | the accept/refuse table of rule rates, including 1/i, -1/i and 1 + 1/i for i in 1..49 |
| Scenarios.RateSamplerTable | tests/tracer/test_sampler.py:104-113 | rate -0.5 is refused with the rate in the error; rate 0 stays 0; the default is 1.0 |
| Scenarios.NamePatternTable | tests/tracer/test_sampler.py:264-288 | every row of the name-pattern table, including both alternation rows and the raising callable's warning |
| Scenarios.ServicePatternTable | tests/tracer/test_sampler.py:291-319 | the rows of the service-pattern table for the sentinel, `None`, plain strings, anchored regular expressions and the raising callable, including an absent service |
| Scenarios.ServiceSearchTable | tests/tracer/test_sampler.py:308-313 | the remaining rows of the service-pattern table: unanchored regular expressions, the alternation on both services, and the substring callables |
| Scenarios.CombinedMatchTable | tests/tracer/test_sampler.py:322-381 | the rows of the both-patterns table, including the rate-0 rule that still matches |
| Scenarios.KeyTable | tests/tracer/test_sampler.py:116-127 | the keys for each combination of service and env |
| Scenarios.DecisionTable | tests/tracer/test_sampler.py:552-644 | priority, rule decision and limit decision for every rule-precedence case, including a keeping first rule followed by dropping ones |
| Scenarios.LimiterTable | tests/tracer/test_sampler.py:647-727 | a single "test.span" rule with the limiter allowing, denying, and at rate 0 not asked |
| Scenarios.InitTable | tests/tracer/test_sampler.py:435-495 | defaults, including the per-service default sampler with no arguments, with only rules and with only a rate limit; rate limit, default rate, TypeError on a non-rule entry, and rule order |

## Left out

- The statistical convergence tests (tests/tracer/test_sampler.py:64-83, 129-163, 404-416) are left out. They check floating-point sampling frequencies over many trace ids. The hash behind them is the `KeepTest` parameter.
- The `SAMPLE_RATE_METRIC_KEY` metric is left out. It is only checked inside those statistical tests.
- Parsing a rate given as a string (`set_sample_rate("0.5")`, lines 56-62) is left out. The model takes the parsed `real`.
- Reading `DD_TRACE_SAMPLE_RATE` and `DD_TRACE_RATE_LIMIT` from the environment (lines 461-483) is left out. Their values arrive as the arguments of `NewDatadogSampler`. Parse errors are outside the model.
- The rate limiter's token bucket and clock are left out. The limiter is the oracle `LimiterAnswer`. The model fixes its answer for a call and counts the calls.
- Mock spies and logging calls become counters and records. These are `rulesTried`, `limiterCalls`, `samplerCalls` and the `Warning` list. The warning does not carry the rule and pattern objects that the real log call formats.
- `AllSampler`, `tracer.configure` and the writer's feedback wiring to the priority sampler are left out. They only plumb samplers into the tracer.
- Three details follow the library's behaviour, not the tests:
  - a `RateSampler` rate above 1 is capped at 1;
  - `matches` tries the service pattern before the name pattern and stops at the first miss;
  - `DEFAULT_RATE_LIMIT` is 100.
- ByService.UpdateRateByServiceSampleRates: the rebuilt table always starts with a default entry at the sampler's own rate. So the table equals the agent's rates exactly only when those rates contain the default key. Every test case contains it, and `UpdateMirrorsAgentRates` states the property under that condition.
- Rules.PatternMatches: an absent property never matches a regular expression, and a callable applied to it fails. The tests show this for their cases (lines 299-302). The model states it for every regex and callable.
- RateSampling.SampleAtRate: rate 0 keeping nothing and rate 1 keeping everything is asserted for rules (lines 419-432). The model uses the same rule for `RateSampler` and the per-service entries.

=== FILE: datadog_sampler.dfy ===
/** The rule-based sampler (`DatadogSampler`): an ordered list of sampling
    rules, a rate limiter that every kept trace must pass, and a default
    sampler for traces no rule matches. It always lets the trace be written
    and expresses its verdict as a sampling priority. */
module Datadog {
  import opened SamplingTypes
  import RateSampling
  import Rules
  import ByService

  /** `DatadogSampler.DEFAULT_RATE_LIMIT`, traces per second. */
  const DefaultRateLimit: int := 100

  /** An entry of the `rules` argument: a sampling rule or any other value. */
  datatype RuleArg = RuleValue(rule: Rules.SamplingRule) | OtherValue

  /** The sampler used when no rule matches: the per-service sampler fed by
      the agent, or a rule built from `default_sample_rate`. */
  datatype DefaultSampler =
    | ByServiceDefault(byService: ByService.RateByServiceSampler)
    | RuleDefault(rule: Rules.SamplingRule)

  datatype DatadogSampler = DatadogSampler(rules: seq<Rules.SamplingRule>, rateLimit: int, defaultSampler: DefaultSampler)
  {
    predicate Valid()
    {
      defaultSampler.ByServiceDefault? ==> defaultSampler.byService.Valid()
    }
  }

  /** Checks every entry of `rules` in order; the first entry that is not a
      sampling rule raises a TypeError. */
  function CheckRules(args: seq<RuleArg>): (r: Result<seq<Rules.SamplingRule>>)
    ensures r.Ok? <==> forall i :: 0 <= i < |args| ==> args[i].RuleValue?
    ensures r.Ok? ==> |r.value| == |args| && forall i :: 0 <= i < |args| ==> r.value[i] == args[i].rule
    ensures r.Err? ==> r.error.NotASamplingRule? && r.error.position < |args|
    ensures r.Err? ==> args[r.error.position].OtherValue?
                       && forall i :: 0 <= i < r.error.position ==> args[i].RuleValue?
  {
    if |args| == 0 then Ok([])
    else
      match args[0]
      case OtherValue => Err(NotASamplingRule(0))
      case RuleValue(rule) =>
        match CheckRules(args[1..])
        case Ok(rest) => Ok([rule] + rest)
        case Err(e) => Err(NotASamplingRule(e.position + 1))
  }

  /** `DatadogSampler(rules=None, default_sample_rate=None, rate_limit=None)`
      with the environment already read into the arguments. */
  function NewDatadogSampler(rules: Option<seq<RuleArg>> := None,
                             defaultSampleRate: Option<real> := None,
                             rateLimit: Option<int> := None): (r: Result<DatadogSampler>)
    ensures r.Ok? <==>
              (forall i :: 0 <= i < |rules.GetOr([])| ==> rules.GetOr([])[i].RuleValue?)
              && (defaultSampleRate.Some? ==> RateSampling.InUnitInterval(defaultSampleRate.value))
    ensures (exists i :: 0 <= i < |rules.GetOr([])| && rules.GetOr([])[i].OtherValue?) ==>
              r.Err? && r.error.IsTypeError()
    ensures r.Err? && !r.error.IsTypeError() ==>
              defaultSampleRate.Some? && r.error == RateOutOfRange(defaultSampleRate.value)
    ensures r.Ok? ==> r.value.Valid()
    ensures r.Ok? ==> |r.value.rules| == |rules.GetOr([])|
                      && forall i :: 0 <= i < |r.value.rules| ==> r.value.rules[i] == rules.GetOr([])[i].rule
    ensures r.Ok? ==> r.value.rateLimit == rateLimit.GetOr(DefaultRateLimit)
    ensures r.Ok? && defaultSampleRate.None? ==>
              r.value.defaultSampler.ByServiceDefault?
              && ByService.Rates(r.value.defaultSampler.byService) == map[ByService.DefaultKey := 1.0]
    ensures r.Ok? && defaultSampleRate.None? ==>
              r.value.defaultSampler.byService.sampleRate == RateSampling.DefaultSampleRate
    ensures r.Err? && r.error.IsTypeError() ==>
              CheckRules(rules.GetOr([])).Err? && r.error == CheckRules(rules.GetOr([])).error
    ensures r.Ok? && defaultSampleRate.Some? ==>
              r.value.defaultSampler == RuleDefault(Rules.SamplingRule(defaultSampleRate.value, Rules.NoRule, Rules.NoRule))
  {
    var checked :- CheckRules(rules.GetOr([]));
    var fallback :- match defaultSampleRate
                    case None =>
                      (match ByService.NewRateByServiceSampler()
                       case Ok(s) => Ok(ByServiceDefault(s))
                       case Err(e) => Err(e))
                    case Some(rate) =>
                      (match Rules.NewSamplingRule(rate)
                       case Ok(rule) => Ok(RuleDefault(rule))
                       case Err(e) => Err(e));
    Ok(DatadogSampler(checked, rateLimit.GetOr(DefaultRateLimit), fallback))
  }

  /** The outcome of searching the rules for a span: the position of the
      first rule that matched, how many rules were asked, and the warnings
      they logged. */
  datatype Search = Search(found: Option<nat>, tried: nat, warnings: seq<Rules.Warning>)

  /** The warnings `matches` logs when each rule of `rules` is asked in turn. */
  function Logged(rules: seq<Rules.SamplingRule>, span: Span): seq<Rules.Warning>
    decreases |rules|
  {
    if |rules| == 0 then [] else Rules.Matches(rules[0], span).warnings + Logged(rules[1..], span)
  }

  /** No warning is logged exactly when no rule asked logs one. */
  lemma {:induction false} LoggedEmpty(rules: seq<Rules.SamplingRule>, span: Span)
    ensures Logged(rules, span) == [] <==> forall j :: 0 <= j < |rules| ==> Rules.Matches(rules[j], span).warnings == []
    decreases |rules|
  {
    if |rules| > 0 {
      LoggedEmpty(rules[1..], span);
      assert forall j :: 1 <= j < |rules| ==> rules[1..][j - 1] == rules[j];
    }
  }

  /** Asks the rules in list order and stops at the first that matches. */
  function FirstMatch(rules: seq<Rules.SamplingRule>, span: Span): (r: Search)
    ensures r.found.Some? ==> r.found.value < |rules| && Rules.Matches(rules[r.found.value], span).matched
    ensures r.found.Some? ==> r.tried == r.found.value + 1
    ensures r.found.None? ==> r.tried == |rules|
    ensures forall j :: 0 <= j < r.tried && (r.found.None? || j < r.found.value) ==>
              !Rules.Matches(rules[j], span).matched
    ensures |r.warnings| <= r.tried
    ensures r.tried <= |rules| && r.warnings == Logged(rules[..r.tried], span)
  {
    if |rules| == 0 then Search(None, 0, [])
    else
      var head := Rules.Matches(rules[0], span);
      if head.matched then
        assert Logged(rules[..1], span) == head.warnings + Logged(rules[..1][1..], span);
        Search(Some(0), 1, head.warnings)
      else
        var rest := FirstMatch(rules[1..], span);
        assert rules[..rest.tried + 1][1..] == rules[1..][..rest.tried];
        Search(match rest.found
               case None => None
               case Some(i) => Some(i + 1),
               rest.tried + 1,
               head.warnings + rest.warnings)
  }

  /** The rule whose rate decides a span's trace: the first matching rule,
      else the default rule; none when the per-service sampler decides. */
  function DecidingRule(ds: DatadogSampler, span: Span): (r: Option<Rules.SamplingRule>)
    ensures r.None? <==> ds.defaultSampler.ByServiceDefault?
                         && forall j :: 0 <= j < |ds.rules| ==> !Rules.Matches(ds.rules[j], span).matched
    ensures forall i :: 0 <= i < |ds.rules| && Rules.Matches(ds.rules[i], span).matched
                        && (forall j :: 0 <= j < i ==> !Rules.Matches(ds.rules[j], span).matched) ==>
                        r == Some(ds.rules[i])
    ensures ((forall j :: 0 <= j < |ds.rules| ==> !Rules.Matches(ds.rules[j], span).matched)
             && ds.defaultSampler.RuleDefault?) ==> r == Some(ds.defaultSampler.rule)
  {
    var search := FirstMatch(ds.rules, span);
    match search.found
    case Some(i) => Some(ds.rules[i])
    case None =>
      match ds.defaultSampler
      case RuleDefault(rule) => Some(rule)
      case ByServiceDefault(_) => None
  }

  /** The sampling priority set on the trace's context. */
  datatype Priority = AutoReject | AutoKeep

  /** What the rate limiter says when asked: whether the trace may pass, and
      the effective rate it reports. */
  datatype LimiterAnswer = LimiterAnswer(allowed: bool, effectiveRate: real)

  /** Everything `DatadogSampler.sample(span)` leaves behind: the priority,
      the rule, limit and agent decision metrics (absent when not set), how
      many rules and limiter calls it made, the warnings logged, and whether
      the trace is sent to the agent. */
  datatype Decision = Decision(
    priority: Priority,
    ruleRate: Option<real>,
    limitRate: Option<real>,
    agentRate: Option<real>,
    rulesTried: nat,
    limiterCalls: nat,
    warnings: seq<Rules.Warning>,
    sampled: bool)

  /** `DatadogSampler.sample(span)` for the root span of a trace. The limiter
      is an oracle: `limiter` is what it would answer if it were asked. */
  function Sample(ds: DatadogSampler, span: Span, keepTest: KeepTest, limiter: LimiterAnswer): (d: Decision)
    requires ds.Valid()
    ensures d.sampled
    ensures d.rulesTried == FirstMatch(ds.rules, span).tried && d.rulesTried <= |ds.rules|
    ensures |d.warnings| <= d.rulesTried
    ensures d.warnings == FirstMatch(ds.rules, span).warnings
    ensures d.ruleRate.Some? <==> DecidingRule(ds, span).Some?
    ensures d.ruleRate.Some? ==> d.ruleRate.value == DecidingRule(ds, span).value.sampleRate
    ensures d.limiterCalls == (if DecidingRule(ds, span).Some? && Rules.Sample(DecidingRule(ds, span).value, span, keepTest) then 1 else 0)
    ensures DecidingRule(ds, span).Some? ==>
              (d.priority == AutoKeep <==> Rules.Sample(DecidingRule(ds, span).value, span, keepTest) && limiter.allowed)
    ensures DecidingRule(ds, span).None? ==>
              (d.priority == AutoKeep <==> ByService.Sample(ds.defaultSampler.byService, span, keepTest).keep)
    ensures d.limitRate.Some? <==> d.priority == AutoKeep && DecidingRule(ds, span).Some?
    ensures d.limitRate.Some? ==> d.limitRate.value == limiter.effectiveRate
    ensures d.agentRate.Some? <==> DecidingRule(ds, span).None?
    ensures d.agentRate.Some? ==> d.agentRate.value == ByService.Sample(ds.defaultSampler.byService, span, keepTest).agentRate
  {
    var search := FirstMatch(ds.rules, span);
    match DecidingRule(ds, span)
    case None =>
      var agent := ByService.Sample(ds.defaultSampler.byService, span, keepTest);
      Decision(if agent.keep then AutoKeep else AutoReject, None, None, Some(agent.agentRate),
               search.tried, 0, search.warnings, true)
    case Some(rule) =>
      if !Rules.Sample(rule, span, keepTest) then
        Decision(AutoReject, Some(rule.sampleRate), None, None, search.tried, 0, search.warnings, true)
      else if !limiter.allowed then
        Decision(AutoReject, Some(rule.sampleRate), None, None, search.tried, 1, search.warnings, true)
      else
        Decision(AutoKeep, Some(rule.sampleRate), Some(limiter.effectiveRate), None,
                 search.tried, 1, search.warnings, true)
  }

  /** When the deciding rule rejects the trace the limiter is never asked, so
      its answer cannot change anything. */
  lemma RejectingRuleIgnoresLimiter(ds: DatadogSampler, span: Span, keepTest: KeepTest, l1: LimiterAnswer, l2: LimiterAnswer)
    requires ds.Valid()
    requires DecidingRule(ds, span).Some? && !Rules.Sample(DecidingRule(ds, span).value, span, keepTest)
    ensures Sample(ds, span, keepTest, l1) == Sample(ds, span, keepTest, l2)
    ensures Sample(ds, span, keepTest, l1).priority == AutoReject
    ensures Sample(ds, span, keepTest, l1).limiterCalls == 0
  {
  }

  /** A deciding rule of rate 0 rejects every trace without asking the
      limiter; one of rate 1 defers to the limiter alone. */
  lemma RuleRateEndpoints(ds: DatadogSampler, span: Span, keepTest: KeepTest, limiter: LimiterAnswer)
    requires ds.Valid()
    ensures DecidingRule(ds, span).Some? && DecidingRule(ds, span).value.sampleRate == 0.0 ==>
              Sample(ds, span, keepTest, limiter).priority == AutoReject
              && Sample(ds, span, keepTest, limiter).limiterCalls == 0
              && Sample(ds, span, keepTest, limiter).limitRate.None?
    ensures DecidingRule(ds, span).Some? && DecidingRule(ds, span).value.sampleRate == 1.0 ==>
              Sample(ds, span, keepTest, limiter).limiterCalls == 1
              && (Sample(ds, span, keepTest, limiter).priority == AutoKeep <==> limiter.allowed)
  {
  }

  /** Rules after the first matching one are never asked: appending rules to
      the list does not change a span's search once a rule matches. */
  lemma {:induction false} FirstMatchIgnoresLaterRules(rules: seq<Rules.SamplingRule>, more: seq<Rules.SamplingRule>, span: Span)
    requires FirstMatch(rules, span).found.Some?
    ensures FirstMatch(rules + more, span) == FirstMatch(rules, span)
  {
    assert |rules| > 0;
    if !Rules.Matches(rules[0], span).matched {
      assert (rules + more)[1..] == rules[1..] + more;
      FirstMatchIgnoresLaterRules(rules[1..], more, span);
    }
  }

  /** So the decision of a sampler is unchanged by appending rules after a
      rule that matches. */
  lemma AppendedRulesKeepDecision(ds: DatadogSampler, more: seq<Rules.SamplingRule>, span: Span, keepTest: KeepTest, limiter: LimiterAnswer)
    requires ds.Valid()
    requires FirstMatch(ds.rules, span).found.Some?
    ensures ds.(rules := ds.rules + more).Valid()
    ensures Sample(ds.(rules := ds.rules + more), span, keepTest, limiter) == Sample(ds, span, keepTest, limiter)
  {
    FirstMatchIgnoresLaterRules(ds.rules, more, span);
  }

  /** `DatadogSampler.update_rate_by_service_sample_rates(rates)`: passed on
      to the per-service sampler when that is the default sampler, ignored
      when a default rate was configured. */
  method UpdateRateByServiceSampleRates(ds: DatadogSampler, rates: map<string, real>) returns (r: Result<DatadogSampler>)
    requires ds.Valid()
    ensures ds.defaultSampler.RuleDefault? ==> r == Ok(ds)
    ensures ds.defaultSampler.ByServiceDefault? ==> (r.Ok? <==> ByService.NoNegativeRate(rates))
    ensures r.Ok? ==> r.value.Valid() && r.value.rules == ds.rules && r.value.rateLimit == ds.rateLimit
    ensures r.Ok? && ds.defaultSampler.ByServiceDefault? ==>
              r.value.defaultSampler.ByServiceDefault?
              && r.value.defaultSampler.byService.byService
                 == ByService.ReplacedTable(ds.defaultSampler.byService.sampleRate, rates)
    ensures r.Ok? && ds.defaultSampler.ByServiceDefault? ==>
              r.value.defaultSampler.byService.sampleRate == ds.defaultSampler.byService.sampleRate
    ensures r.Err? ==> r.error.NegativeRate? && exists k :: k in rates && rates[k] == r.error.rate
  {
    match ds.defaultSampler
    case RuleDefault(_) =>
      r := Ok(ds);
    case ByServiceDefault(s) =>
      var updated := ByService.UpdateRateByServiceSampleRates(s, rates);
      if updated.Err? {
        return Err(updated.error);
      }
      r := Ok(ds.(defaultSampler := ByServiceDefault(updated.value)));
  }
}

=== FILE: rate_by_service.dfy ===
/** The per-service sampler (`RateByServiceSampler`): a table from
    `"service:<s>,env:<e>"` keys to rate samplers, filled from the rates the
    agent sends back and replaced as a whole on every update. */
module ByService {
  import opened SamplingTypes
  import RateSampling

  const ServicePrefix: string := "service:"
  const EnvSeparator: string := ",env:"

  /** The key of the entry used when a span's own key has none. */
  const DefaultKey: string := "service:,env:"

  /** `_key(service, env)`: an absent or empty part is written as "". */
  function Key(service: Option<string> := None, env: Option<string> := None): (k: string)
    ensures |k| >= |ServicePrefix| + |EnvSeparator|
    ensures k[..|ServicePrefix|] == ServicePrefix
    ensures |k| == |ServicePrefix| + |service.GetOr("")| + |EnvSeparator| + |env.GetOr("")|
    ensures k[|ServicePrefix|..|ServicePrefix| + |service.GetOr("")|] == service.GetOr("")
    ensures k[|ServicePrefix| + |service.GetOr("")|..|ServicePrefix| + |service.GetOr("")| + |EnvSeparator|] == EnvSeparator
    ensures k[|k| - |env.GetOr("")|..] == env.GetOr("")
  {
    ServicePrefix + service.GetOr("") + EnvSeparator + env.GetOr("")
  }

  /** The first position of `c` in `s`, if any. */
  function IndexOf(s: string, c: char): (r: Option<nat>)
    ensures r.None? ==> forall j :: 0 <= j < |s| ==> s[j] != c
    ensures r.Some? ==> r.value < |s| && s[r.value] == c
    ensures r.Some? ==> forall j :: 0 <= j < r.value ==> s[j] != c
  {
    if |s| == 0 then None
    else if s[0] == c then Some(0)
    else
      match IndexOf(s[1..], c)
      case None => None
      case Some(i) => Some(i + 1)
  }

  /** Reads a key back into its service and env parts, splitting at the
      first comma after the prefix. */
  function ParseKey(k: string): (r: Option<(string, string)>)
    ensures r.Some? ==> Key(Some(r.value.0), Some(r.value.1)) == k
  {
    if |k| < |ServicePrefix| || k[..|ServicePrefix|] != ServicePrefix then None
    else
      var rest := k[|ServicePrefix|..];
      match IndexOf(rest, ',')
      case None => None
      case Some(i) =>
        if |rest| - i < |EnvSeparator| || rest[i..i + |EnvSeparator|] != EnvSeparator then None
        else
          assert k == ServicePrefix + rest[..i] + EnvSeparator + rest[i + |EnvSeparator|..];
          Some((rest[..i], rest[i + |EnvSeparator|..]))
  }

  /** A key gives back the service and env it was built from, provided the
      service holds no comma. */
  lemma {:induction false} KeyRoundTrip(service: string, env: string)
    requires forall j :: 0 <= j < |service| ==> service[j] != ','
    ensures ParseKey(Key(Some(service), Some(env))) == Some((service, env))
  {
    var k := Key(Some(service), Some(env));
    var rest := k[|ServicePrefix|..];
    assert rest == service + EnvSeparator + env;
    IndexOfPrefix(service, EnvSeparator + env, ',');
    assert rest[|service|..|service| + |EnvSeparator|] == EnvSeparator;
    assert rest[..|service|] == service;
    assert rest[|service| + |EnvSeparator|..] == env;
  }

  lemma {:induction false} IndexOfPrefix(a: string, b: string, c: char)
    requires forall j :: 0 <= j < |a| ==> a[j] != c
    requires |b| > 0 && b[0] == c
    ensures IndexOf(a + b, c) == Some(|a|)
    decreases |a|
  {
    if |a| > 0 {
      assert (a + b)[1..] == a[1..] + b;
      IndexOfPrefix(a[1..], b, c);
    }
  }

  /** Distinct comma-free services, or distinct envs, never share a key. */
  lemma KeyInjective(s1: string, e1: string, s2: string, e2: string)
    requires forall j :: 0 <= j < |s1| ==> s1[j] != ','
    requires forall j :: 0 <= j < |s2| ==> s2[j] != ','
    requires Key(Some(s1), Some(e1)) == Key(Some(s2), Some(e2))
    ensures s1 == s2 && e1 == e2
  {
    KeyRoundTrip(s1, e1);
    KeyRoundTrip(s2, e2);
  }

  /** With a comma in the service name the key format is ambiguous. */
  lemma KeyAmbiguousWithComma()
    ensures Key(Some("a,env:b"), None) == Key(Some("a"), Some("b,env:"))
  {
  }

  /** The default key is the key of no service and no env, and an empty
      part is written as an absent one. */
  lemma DefaultKeyIsEmptyKey(service: string, env: string)
    ensures Key() == DefaultKey
    ensures Key(Some(""), Some("")) == DefaultKey
    ensures Key(Some(service)) == "service:" + service + ",env:"
    ensures Key(None, Some(env)) == "service:,env:" + env
    ensures ParseKey(DefaultKey) == Some(("", ""))
  {
  }

  /** A rate sampler for a rate known to be non-negative: rates above 1 are
      capped as `RateSampler` does. */
  function Capped(rate: real): (s: RateSampling.RateSampler)
    requires rate >= 0.0
    ensures RateSampling.InUnitInterval(s.sampleRate)
    ensures rate <= 1.0 ==> s.sampleRate == rate
  {
    RateSampling.NewRateSampler(rate).value
  }

  datatype RateByServiceSampler = RateByServiceSampler(sampleRate: real, byService: map<string, RateSampling.RateSampler>)
  {
    /** What every sampler built and updated through this module keeps: a
        non-negative configured rate, a default entry, and rates in [0, 1]. */
    predicate Valid()
    {
      && sampleRate >= 0.0
      && DefaultKey in byService
      && forall k :: k in byService ==> RateSampling.InUnitInterval(byService[k].sampleRate)
    }
  }

  /** The key to rate view of a sampler's table. */
  function Rates(s: RateByServiceSampler): (m: map<string, real>)
    ensures m.Keys == s.byService.Keys
  {
    map k | k in s.byService :: s.byService[k].sampleRate
  }

  /** `RateByServiceSampler(sample_rate=1.0)`: the table starts with the
      default entry alone. */
  function NewRateByServiceSampler(rate: real := RateSampling.DefaultSampleRate): (r: Result<RateByServiceSampler>)
    ensures r.Err? <==> rate < 0.0
    ensures r.Err? ==> r.error == NegativeRate(rate)
    ensures r.Ok? ==> r.value.Valid() && r.value.sampleRate == rate
    ensures r.Ok? && rate <= 1.0 ==> Rates(r.value) == map[DefaultKey := rate]
    ensures r.Ok? && rate > 1.0 ==> Rates(r.value) == map[DefaultKey := 1.0]
  {
    if rate < 0.0 then Err(NegativeRate(rate))
    else Ok(RateByServiceSampler(rate, map[DefaultKey := Capped(rate)]))
  }

  /** `set_sample_rate(rate, service, env)`: sets the entry of one key and
      leaves every other entry as it was. */
  function SetSampleRate(s: RateByServiceSampler, rate: real, service: string := "", env: string := ""): (r: Result<RateByServiceSampler>)
    requires s.Valid()
    ensures r.Err? <==> rate < 0.0
    ensures r.Err? ==> r.error == NegativeRate(rate)
    ensures r.Ok? ==> r.value.Valid() && r.value.sampleRate == s.sampleRate
    ensures r.Ok? ==> Rates(r.value).Keys == Rates(s).Keys + {Key(Some(service), Some(env))}
    ensures r.Ok? && rate <= 1.0 ==> Rates(r.value)[Key(Some(service), Some(env))] == rate
    ensures r.Ok? && rate > 1.0 ==> Rates(r.value)[Key(Some(service), Some(env))] == 1.0
    ensures r.Ok? ==> forall k :: k in s.byService && k != Key(Some(service), Some(env)) ==>
                        r.value.byService[k] == s.byService[k]
  {
    if rate < 0.0 then Err(NegativeRate(rate))
    else Ok(s.(byService := s.byService[Key(Some(service), Some(env)) := Capped(rate)]))
  }

  predicate NoNegativeRate(rates: map<string, real>)
  {
    forall k :: k in rates ==> rates[k] >= 0.0
  }

  /** The table an update builds: a default entry at the sampler's own rate,
      then one entry per key the agent sent, overriding the default. */
  function ReplacedTable(rate: real, rates: map<string, real>): (t: map<string, RateSampling.RateSampler>)
    requires rate >= 0.0 && NoNegativeRate(rates)
    ensures t.Keys == rates.Keys + {DefaultKey}
  {
    map k | k in rates.Keys + {DefaultKey} :: if k in rates then Capped(rates[k]) else Capped(rate)
  }

  /** `update_rate_by_service_sample_rates(rates)`: builds a new table by
      walking the agent's rates, and installs it only once every rate was
      accepted; a negative rate raises a ValueError and leaves the sampler as
      it was. Nothing of the previous table survives an update. */
  method UpdateRateByServiceSampleRates(s: RateByServiceSampler, rates: map<string, real>) returns (r: Result<RateByServiceSampler>)
    requires s.Valid()
    ensures r.Ok? <==> NoNegativeRate(rates)
    ensures r.Ok? ==> r.value.Valid() && r.value.sampleRate == s.sampleRate
    ensures r.Ok? ==> r.value.byService == ReplacedTable(s.sampleRate, rates)
    ensures r.Err? ==> r.error.NegativeRate? && r.error.rate < 0.0
    ensures r.Err? ==> exists k :: k in rates && rates[k] == r.error.rate
  {
    var built := map[DefaultKey := Capped(s.sampleRate)];
    var pending := rates.Keys;
    while pending != {}
      invariant pending <= rates.Keys
      invariant forall k :: k in rates && k !in pending ==> rates[k] >= 0.0
      invariant built.Keys == (rates.Keys - pending) + {DefaultKey}
      invariant forall k :: k in built ==>
                  built[k] == if k in rates && k !in pending then Capped(rates[k]) else Capped(s.sampleRate)
      decreases pending
    {
      var k :| k in pending;
      var sampler := RateSampling.NewRateSampler(rates[k]);
      if sampler.Err? {
        return Err(sampler.error);
      }
      built := built[k := sampler.value];
      pending := pending - {k};
    }
    r := Ok(s.(byService := built));
  }

  /** When the agent's rates lie in [0, 1] and include the default key, the
      table after the update holds exactly those keys at exactly those rates:
      keys the agent no longer sends are gone and new ones are present. */
  lemma UpdateMirrorsAgentRates(rate: real, rates: map<string, real>)
    requires rate >= 0.0
    requires DefaultKey in rates
    requires NoNegativeRate(rates) && forall k :: k in rates ==> rates[k] <= 1.0
    ensures Rates(RateByServiceSampler(rate, ReplacedTable(rate, rates))) == rates
  {
  }

  /** Applies the agent's rate tables one after the other, as the agent's
      responses arrive. */
  method ReplayUpdates(s: RateByServiceSampler, cases: seq<map<string, real>>) returns (r: Result<RateByServiceSampler>)
    requires s.Valid()
    requires |cases| > 0
    requires forall i :: 0 <= i < |cases| ==> DefaultKey in cases[i]
    requires forall i, k :: 0 <= i < |cases| && k in cases[i] ==> RateSampling.InUnitInterval(cases[i][k])
    ensures r.Ok? && r.value.Valid()
    ensures Rates(r.value) == cases[|cases| - 1]
  {
    var current := s;
    var i := 0;
    while i < |cases|
      invariant 0 <= i <= |cases|
      invariant current.Valid() && current.sampleRate == s.sampleRate
      invariant i > 0 ==> Rates(current) == cases[i - 1]
    {
      var next := UpdateRateByServiceSampleRates(current, cases[i]);
      UpdateMirrorsAgentRates(current.sampleRate, cases[i]);
      current := next.value;
      i := i + 1;
    }
    r := Ok(current);
  }

  /** The outcome of `RateByServiceSampler.sample(span)`: the keep decision
      and the rate recorded as the agent decision. */
  datatype AgentDecision = AgentDecision(keep: bool, agentRate: real)

  /** `RateByServiceSampler.sample(span)`: the entry for the span's service
      and env decides, or the default entry when there is none. */
  function Sample(s: RateByServiceSampler, span: Span, keepTest: KeepTest): (d: AgentDecision)
    requires s.Valid()
    ensures RateSampling.InUnitInterval(d.agentRate)
    ensures Key(span.service, span.env) in s.byService ==>
              d.agentRate == s.byService[Key(span.service, span.env)].sampleRate
    ensures Key(span.service, span.env) !in s.byService ==>
              d.agentRate == s.byService[DefaultKey].sampleRate
    ensures d.keep == RateSampling.SampleAtRate(d.agentRate, span.traceId, keepTest)
  {
    var sampler := if Key(span.service, span.env) in s.byService
                   then s.byService[Key(span.service, span.env)]
                   else s.byService[DefaultKey];
    AgentDecision(RateSampling.Sample(sampler, span, keepTest), sampler.sampleRate)
  }
}

=== FILE: rate_sampler.dfy ===
/** Sample rates and the plain rate sampler (`RateSampler`): a rate is a
    fraction of traces to keep, and the keep decision for a trace depends on
    nothing but its trace id and the rate. */
module RateSampling {
  import opened SamplingTypes

  /** The rate a sampler uses when none is given. */
  const DefaultSampleRate: real := 1.0

  predicate InUnitInterval(rate: real)
  {
    0.0 <= rate <= 1.0
  }

  /** The keep decision for a trace at a rate. Rate 1 keeps every trace and
      rate 0 keeps none, whatever the hash says; any other rate asks the
      hash-based keep test. */
  function SampleAtRate(rate: real, traceId: nat, keepTest: KeepTest): (keep: bool)
    ensures rate == 1.0 ==> keep
    ensures rate == 0.0 ==> !keep
    ensures rate != 0.0 && rate != 1.0 ==> keep == keepTest(traceId, rate)
  {
    if rate == 1.0 then true
    else if rate == 0.0 then false
    else keepTest(traceId, rate)
  }

  datatype RateSampler = RateSampler(sampleRate: real)

  /** `RateSampler(sample_rate=rate)`: a negative rate is refused with a
      ValueError, a rate above 1 is capped at 1, and any other rate is kept
      as given (0 stays 0). */
  function NewRateSampler(rate: real := DefaultSampleRate): (r: Result<RateSampler>)
    ensures r.Err? <==> rate < 0.0
    ensures r.Err? ==> r.error == NegativeRate(rate) && r.error.IsValueError()
    ensures r.Ok? ==> InUnitInterval(r.value.sampleRate)
    ensures r.Ok? && rate <= 1.0 ==> r.value.sampleRate == rate
    ensures r.Ok? && rate > 1.0 ==> r.value.sampleRate == 1.0
  {
    if rate < 0.0 then Err(NegativeRate(rate))
    else if rate > 1.0 then Ok(RateSampler(1.0))
    else Ok(RateSampler(rate))
  }

  /** `set_sample_rate(rate)`: the sampler now uses `rate`. */
  function SetSampleRate(s: RateSampler, rate: real): (r: RateSampler)
    ensures r.sampleRate == rate
  {
    s.(sampleRate := rate)
  }

  /** Applies `set_sample_rate` once for each rate of `rates`, in order. */
  function SetSampleRates(s: RateSampler, rates: seq<real>): RateSampler
    decreases |rates|
  {
    if |rates| == 0 then s
    else SetSampleRates(SetSampleRate(s, rates[0]), rates[1..])
  }

  /** Whatever rates were set before, the sampler reports the last one set. */
  lemma {:induction false} LastSetRateWins(s: RateSampler, rates: seq<real>)
    requires |rates| > 0
    ensures SetSampleRates(s, rates).sampleRate == rates[|rates| - 1]
    decreases |rates|
  {
    if |rates| > 1 {
      LastSetRateWins(SetSampleRate(s, rates[0]), rates[1..]);
      assert rates[1..][|rates[1..]| - 1] == rates[|rates| - 1];
    }
  }

  /** `RateSampler.sample(span)`: rate 1 keeps every trace, rate 0 none, and
      any other rate leaves the trace to the keep test at that rate. */
  function Sample(s: RateSampler, span: Span, keepTest: KeepTest): (keep: bool)
    ensures s.sampleRate == 1.0 ==> keep
    ensures s.sampleRate == 0.0 ==> !keep
    ensures s.sampleRate != 0.0 && s.sampleRate != 1.0 ==> (keep <==> keepTest(span.traceId, s.sampleRate))
  {
    SampleAtRate(s.sampleRate, span.traceId, keepTest)
  }

  /** Two spans of the same trace get the same decision: only the trace id
      and the rate enter it. */
  lemma SampleIsPerTrace(s: RateSampler, a: Span, b: Span, keepTest: KeepTest)
    requires a.traceId == b.traceId
    ensures Sample(s, a, keepTest) == Sample(s, b, keepTest)
  {
  }

  /** A sampler built with no arguments keeps every trace. */
  lemma DefaultSamplerKeepsAll(span: Span, keepTest: KeepTest)
    ensures NewRateSampler().Ok?
    ensures NewRateSampler().value.sampleRate == 1.0
    ensures Sample(NewRateSampler().value, span, keepTest)
  {
  }
}

=== FILE: root_sampling.dfy ===
/** How the tracer uses the sampler: the decision is taken once per trace,
    when its root span starts, and every later span of the trace shares it. */
module RootSampling {
  import opened SamplingTypes
  import Datadog

  /** The sampling state a trace's spans share: the decision, once taken,
      and how many times the sampler was asked. */
  datatype TraceContext = TraceContext(decision: Option<Datadog.Decision>, samplerCalls: nat)

  const EmptyContext: TraceContext := TraceContext(None, 0)

  /** Starting a span in a trace. The span that finds no decision yet is the
      root: the sampler is asked about it. Any later span inherits the
      decision and the sampler is not asked. */
  function StartSpan(ctx: TraceContext, ds: Datadog.DatadogSampler, span: Span, keepTest: KeepTest,
                     limiter: Datadog.LimiterAnswer): (r: TraceContext)
    requires ds.Valid()
    ensures ctx.decision.Some? ==> r == ctx
    ensures ctx.decision.None? ==> r.decision == Some(Datadog.Sample(ds, span, keepTest, limiter))
    ensures ctx.decision.None? ==> r.samplerCalls == ctx.samplerCalls + 1
  {
    match ctx.decision
    case Some(_) => ctx
    case None => TraceContext(Some(Datadog.Sample(ds, span, keepTest, limiter)), ctx.samplerCalls + 1)
  }

  /** Starts the spans of one trace in order; `limiters[i]` is what the rate
      limiter would answer at the start of `spans[i]`. */
  function StartSpans(ctx: TraceContext, ds: Datadog.DatadogSampler, spans: seq<Span>, keepTest: KeepTest,
                      limiters: seq<Datadog.LimiterAnswer>): TraceContext
    requires ds.Valid()
    requires |limiters| == |spans|
    decreases |spans|
  {
    if |spans| == 0 then ctx
    else StartSpans(StartSpan(ctx, ds, spans[0], keepTest, limiters[0]), ds, spans[1..], keepTest, limiters[1..])
  }

  /** Once a trace has its decision, starting more spans changes nothing. */
  lemma {:induction false} DecidedContextIsStable(ctx: TraceContext, ds: Datadog.DatadogSampler, spans: seq<Span>,
                                                  keepTest: KeepTest, limiters: seq<Datadog.LimiterAnswer>)
    requires ds.Valid()
    requires |limiters| == |spans|
    requires ctx.decision.Some?
    ensures StartSpans(ctx, ds, spans, keepTest, limiters) == ctx
    decreases |spans|
  {
    if |spans| > 0 {
      DecidedContextIsStable(ctx, ds, spans[1..], keepTest, limiters[1..]);
    }
  }

  /** Whatever the children are and whatever the limiter would say at their
      start, the sampler is asked exactly once per trace, about the root
      span, and the limiter's answer at the root is the only one used. */
  lemma {:induction false} SampledOnceAtRoot(ds: Datadog.DatadogSampler, spans: seq<Span>, keepTest: KeepTest,
                          limiters: seq<Datadog.LimiterAnswer>)
    requires ds.Valid()
    requires |limiters| == |spans| && |spans| > 0
    ensures StartSpans(EmptyContext, ds, spans, keepTest, limiters).samplerCalls == 1
    ensures StartSpans(EmptyContext, ds, spans, keepTest, limiters).decision
            == Some(Datadog.Sample(ds, spans[0], keepTest, limiters[0]))
  {
    DecidedContextIsStable(StartSpan(EmptyContext, ds, spans[0], keepTest, limiters[0]),
                           ds, spans[1..], keepTest, limiters[1..]);
  }

  /** A finished span as handed to the writer, with its trace's priority. */
  datatype WrittenSpan = WrittenSpan(span: Span, priority: Datadog.Priority)

  /** The spans the writer receives when a trace finishes: all of them when
      the decision marks the trace as sampled, each with the trace's
      priority. */
  function Flush(ctx: TraceContext, spans: seq<Span>): (r: seq<WrittenSpan>)
    requires ctx.decision.Some?
    ensures ctx.decision.value.sampled ==> |r| == |spans|
    ensures ctx.decision.value.sampled ==>
              forall i :: 0 <= i < |r| ==> r[i] == WrittenSpan(spans[i], ctx.decision.value.priority)
    ensures !ctx.decision.value.sampled ==> r == []
  {
    if ctx.decision.value.sampled then seq(|spans|, i requires 0 <= i < |spans| => WrittenSpan(spans[i], ctx.decision.value.priority))
    else []
  }

  /** Under the rule-based sampler every span of a trace is written, kept or
      rejected, and all carry the priority decided at the root. */
  lemma {:induction false} TraceAlwaysWritten(ds: Datadog.DatadogSampler, spans: seq<Span>, keepTest: KeepTest,
                           limiters: seq<Datadog.LimiterAnswer>)
    requires ds.Valid()
    requires |limiters| == |spans| && |spans| > 0
    ensures StartSpans(EmptyContext, ds, spans, keepTest, limiters).decision.Some?
    ensures |Flush(StartSpans(EmptyContext, ds, spans, keepTest, limiters), spans)| == |spans|
    ensures forall i :: 0 <= i < |spans| ==>
              Flush(StartSpans(EmptyContext, ds, spans, keepTest, limiters), spans)[i]
              == WrittenSpan(spans[i], Datadog.Sample(ds, spans[0], keepTest, limiters[0]).priority)
  {
    SampledOnceAtRoot(ds, spans, keepTest, limiters);
  }
}

=== FILE: sampling_rule.dfy ===
/** Sampling rules (`SamplingRule`): a rate together with a pattern for the
    span's service and one for its name. A rule applies to a span when both
    patterns accept the corresponding property. */
module Rules {
  import opened SamplingTypes
  import RateSampling

  /** What a user-supplied callable does with a property: it returns a value
      (taken for its truthiness) or raises. */
  datatype CallOutcome = Returned(truthy: bool) | Raised

  /** A pattern for one property of a span. */
  datatype Pattern =
    | NoRule                                // the NO_RULE sentinel: no constraint
    | NullPattern                           // Python `None`: the property must be absent
    | Exact(text: string)                   // a plain string: the property must equal it
    | Regex(search: string -> bool)         // a compiled regular expression
    | Callable(call: string -> CallOutcome) // a function of the property

  /** The two properties a rule looks at, for warnings. */
  datatype Field = ServiceField | NameField

  /** The warning logged when a pattern fails on a property. */
  datatype Warning = PatternFailed(field: Field, property: Option<string>)

  /** The outcome of one pattern on one property: whether it matched, and
      whether the pattern failed (which is logged and counts as no match). */
  datatype PatternOutcome = PatternOutcome(matched: bool, failed: bool)

  /** Whether `pattern` accepts `property`, case by case. A callable applied
      to an absent property fails, as a string function does on `None`. */
  function PatternMatches(property: Option<string>, pattern: Pattern): (r: PatternOutcome)
    ensures r.failed ==> !r.matched
    ensures r.failed ==> pattern.Callable?
    ensures pattern.NoRule? ==> r.matched
    ensures pattern.NullPattern? ==> (r.matched <==> property.None?)
    ensures pattern.Exact? ==> (r.matched <==> property == Some(pattern.text))
    ensures property.None? && !pattern.NoRule? && !pattern.NullPattern? ==> !r.matched
    ensures pattern.Regex? && property.Some? ==> r.matched == pattern.search(property.value)
    ensures pattern.Callable? && property.Some? ==>
              r.matched == (pattern.call(property.value) == Returned(true))
              && r.failed == pattern.call(property.value).Raised?
    ensures pattern.Callable? && property.None? ==> r.failed
  {
    match pattern
    case NoRule => PatternOutcome(true, false)
    case NullPattern => PatternOutcome(property.None?, false)
    case Exact(text) => PatternOutcome(property == Some(text), false)
    case Regex(search) =>
      (match property
       case None => PatternOutcome(false, false)
       case Some(p) => PatternOutcome(search(p), false))
    case Callable(call) =>
      (match property
       case None => PatternOutcome(false, true)
       case Some(p) =>
         (match call(p)
          case Returned(t) => PatternOutcome(t, false)
          case Raised => PatternOutcome(false, true)))
  }

  datatype SamplingRule = SamplingRule(sampleRate: real, service: Pattern, name: Pattern)

  /** `SamplingRule(sample_rate, service=NO_RULE, name=NO_RULE)`: a rate
      outside [0, 1] is refused with a ValueError; otherwise the rate and
      both patterns are stored unchanged. */
  function NewSamplingRule(rate: real, service: Pattern := NoRule, name: Pattern := NoRule): (r: Result<SamplingRule>)
    ensures r.Ok? <==> RateSampling.InUnitInterval(rate)
    ensures r.Ok? ==> r.value.sampleRate == rate && r.value.service == service && r.value.name == name
    ensures r.Err? ==> r.error == RateOutOfRange(rate) && r.error.IsValueError()
  {
    if rate < 0.0 || rate > 1.0 then Err(RateOutOfRange(rate))
    else Ok(SamplingRule(rate, service, name))
  }

  /** The outcome of `matches(span)`: the answer and the warnings logged. */
  datatype RuleMatch = RuleMatch(matched: bool, warnings: seq<Warning>)

  /** `SamplingRule.matches(span)`: the service pattern is tried first and
      the name pattern only if the service matched. */
  function Matches(rule: SamplingRule, span: Span): (r: RuleMatch)
    ensures r.matched <==>
              PatternMatches(span.service, rule.service).matched
              && PatternMatches(Some(span.name), rule.name).matched
    ensures |r.warnings| <= 1
    ensures r.warnings != [] ==> !r.matched
    ensures r.warnings == [PatternFailed(ServiceField, span.service)] <==>
              PatternMatches(span.service, rule.service).failed
    ensures r.warnings == [PatternFailed(NameField, Some(span.name))] <==>
              PatternMatches(span.service, rule.service).matched
              && PatternMatches(Some(span.name), rule.name).failed
    ensures r.warnings == [] <==>
              !PatternMatches(span.service, rule.service).failed
              && !(PatternMatches(span.service, rule.service).matched
                   && PatternMatches(Some(span.name), rule.name).failed)
  {
    var byService := PatternMatches(span.service, rule.service);
    if !byService.matched then
      RuleMatch(false, if byService.failed then [PatternFailed(ServiceField, span.service)] else [])
    else
      var byName := PatternMatches(Some(span.name), rule.name);
      RuleMatch(byName.matched, if byName.failed then [PatternFailed(NameField, Some(span.name))] else [])
  }

  /** Whether a rule applies does not depend on its rate: a rule with rate 0
      still matches. */
  lemma MatchesIgnoresRate(rule: SamplingRule, rate: real, span: Span)
    ensures Matches(rule.(sampleRate := rate), span) == Matches(rule, span)
  {
  }

  /** A rule built with only a rate matches every span and logs nothing. */
  lemma DefaultRuleMatchesAll(rate: real, span: Span)
    requires RateSampling.InUnitInterval(rate)
    ensures NewSamplingRule(rate).Ok?
    ensures NewSamplingRule(rate).value.service == NoRule && NewSamplingRule(rate).value.name == NoRule
    ensures Matches(NewSamplingRule(rate).value, span) == RuleMatch(true, [])
  {
  }

  /** `SamplingRule.sample(span)`: rate 1 keeps every trace, rate 0 none, and
      any other rate leaves the trace to the keep test at the rule's rate. */
  function Sample(rule: SamplingRule, span: Span, keepTest: KeepTest): (keep: bool)
    ensures rule.sampleRate == 1.0 ==> keep
    ensures rule.sampleRate == 0.0 ==> !keep
    ensures rule.sampleRate != 0.0 && rule.sampleRate != 1.0 ==> keep == keepTest(span.traceId, rule.sampleRate)
  {
    RateSampling.SampleAtRate(rule.sampleRate, span.traceId, keepTest)
  }
}

=== FILE: sampling_types.dfy ===
/** Shared vocabulary of the sampler model: optional values, the errors the
    samplers raise, results that carry either a value or such an error, and
    the parts of a span that sampling looks at. */
module SamplingTypes {

  datatype Option<+T> = None | Some(value: T)
  {
    /** The value, or `default` when there is none (Python's `x or default`
        for values that are never falsy). */
    function GetOr(default: T): T
    {
      match this
      case Some(v) => v
      case None => default
    }
  }

  /** The exceptions raised while configuring a sampler. */
  datatype Error =
    | NegativeRate(rate: real)        // RateSampler: "sample_rate of <rate> is negative"
    | RateOutOfRange(rate: real)      // SamplingRule: rate outside [0, 1]
    | NotASamplingRule(position: nat) // DatadogSampler: a rules entry that is not a SamplingRule
  {
    /** Python raises ValueError for both rate errors. */
    predicate IsValueError() { NegativeRate? || RateOutOfRange? }

    /** Python raises TypeError for a rules entry of the wrong type. */
    predicate IsTypeError() { NotASamplingRule? }
  }

  datatype Result<+T> = Ok(value: T) | Err(error: Error)
  {
    predicate IsFailure() { Err? }

    function PropagateFailure<U>(): Result<U>
      requires Err?
    {
      Err(error)
    }

    function Extract(): T
      requires Ok?
    {
      value
    }
  }

  /** The fields of a span that the samplers read. `env` is the tracer's
      `env` tag, when it has one. A span's name is never absent; its service
      may be. */
  datatype Span = Span(traceId: nat, name: string, service: Option<string>, env: Option<string>)

  /** The hash-based keep test for a trace id at a rate strictly between 0
      and 1. It is a pure function of its two arguments, so sampling the same
      trace id at the same rate always gives the same answer. */
  type KeepTest = (nat, real) -> bool
}

=== FILE: scenarios.dfy ===
/** The case tables of the sampler's test suite, stated over the model.
    Regular expressions and callables appear as the string predicates they
    compute on the inputs of the tables: a search anchored with `^` is
    `StartsWith`, an unanchored search is `Contains`. */
module Scenarios {
  import opened SamplingTypes
  import RateSampling
  import Rules
  import ByService
  import Datadog

  predicate StartsWith(s: string, prefix: string)
  {
    |prefix| <= |s| && s[..|prefix|] == prefix
  }

  predicate Contains(s: string, part: string)
    decreases |s|
  {
    StartsWith(s, part) || (|s| > 0 && Contains(s[1..], part))
  }

  /** Rule rates at and inside the bounds are accepted and stored as given;
      rates just outside them, and 1/i below 0 or above 1, are refused. */
  lemma RuleRateTable(i: int)
    requires 1 <= i < 50
    ensures Rules.NewSamplingRule(0.0).Ok? && Rules.NewSamplingRule(0.0).value.sampleRate == 0.0
    ensures Rules.NewSamplingRule(1.0).Ok? && Rules.NewSamplingRule(1.0).value.sampleRate == 1.0
    ensures Rules.NewSamplingRule(0.000001).Ok? && Rules.NewSamplingRule(0.999999).Ok?
    ensures Rules.NewSamplingRule(-0.000000001).Err? && Rules.NewSamplingRule(1.0000000001).Err?
    ensures Rules.NewSamplingRule(1.0 / i as real).Ok?
    ensures Rules.NewSamplingRule(1.0 / i as real).value.sampleRate == 1.0 / i as real
    ensures Rules.NewSamplingRule(-(1.0 / i as real)).Err?
    ensures Rules.NewSamplingRule(1.0 + 1.0 / i as real).Err?
  {
  }

  /** A negative rate is refused by the rate sampler, and rate 0 stays 0. */
  lemma RateSamplerTable()
    ensures RateSampling.NewRateSampler(-0.5) == Err(NegativeRate(-0.5))
    ensures RateSampling.NewRateSampler(0.0) == Ok(RateSampling.RateSampler(0.0))
    ensures RateSampling.NewRateSampler() == Ok(RateSampling.RateSampler(1.0))
  {
  }

  function NameRule(pattern: Rules.Pattern): Rules.SamplingRule
  {
    Rules.SamplingRule(1.0, Rules.NoRule, pattern)
  }

  function ServiceRule(pattern: Rules.Pattern): Rules.SamplingRule
  {
    Rules.SamplingRule(1.0, pattern, Rules.NoRule)
  }

  function NamedSpan(name: string): Span
  {
    Span(0, name, Some(""), None)
  }

  function ServiceSpan(service: Option<string>): Span
  {
    Span(0, "test.span", service, None)
  }

  /** Name patterns: the sentinel, `None`, plain strings, regular
      expressions, and callables, one of which raises. */
  lemma NamePatternTable()
    ensures Rules.Matches(NameRule(Rules.NoRule), NamedSpan("test.span")).matched
    ensures !Rules.Matches(NameRule(Rules.NullPattern), NamedSpan("test.span")).matched
    ensures Rules.Matches(NameRule(Rules.Exact("test.span")), NamedSpan("test.span")).matched
    ensures !Rules.Matches(NameRule(Rules.Exact("test_span")), NamedSpan("test.span")).matched
    ensures Rules.Matches(NameRule(Rules.Regex(s => s == "test.span")), NamedSpan("test.span")).matched
    ensures Rules.Matches(NameRule(Rules.Regex(s => |s| == 9 && s[..4] == "test" && s[5..] == "span")), NamedSpan("test_span")).matched
    ensures !Rules.Matches(NameRule(Rules.Regex(s => s == "test_span")), NamedSpan("test.span")).matched
    ensures Rules.Matches(NameRule(Rules.Regex(s => Contains(s, "test"))), NamedSpan("test.span")).matched
    ensures Rules.Matches(NameRule(Rules.Regex(s => Contains(s, "test.span") || Contains(s, "another.span"))), NamedSpan("test.span")).matched
    ensures Rules.Matches(NameRule(Rules.Regex(s => Contains(s, "test.span") || Contains(s, "another.span"))), NamedSpan("another.span")).matched
    ensures Rules.Matches(NameRule(Rules.Callable(s => Rules.Returned(Contains(s, "span")))), NamedSpan("test.span")).matched
    ensures !Rules.Matches(NameRule(Rules.Callable(s => Rules.Returned(!Contains(s, "span")))), NamedSpan("test.span")).matched
    ensures Rules.Matches(NameRule(Rules.Callable(s => Rules.Raised)), NamedSpan("test.span"))
            == Rules.RuleMatch(false, [Rules.PatternFailed(Rules.NameField, Some("test.span"))])
  {
    assert StartsWith("test.span", "test") && StartsWith("test.span", "test.span");
    assert StartsWith("another.span", "another.span");
    assert Contains("test.span", "span") by {
      assert StartsWith("test.span"[5..], "span");
    }
  }

  /** Service patterns, including a span whose service is absent. */
  lemma ServicePatternTable()
    ensures Rules.Matches(ServiceRule(Rules.NoRule), ServiceSpan(Some("my-service"))).matched
    ensures !Rules.Matches(ServiceRule(Rules.NullPattern), ServiceSpan(Some("my-service"))).matched
    ensures Rules.Matches(ServiceRule(Rules.NullPattern), ServiceSpan(None)).matched
    ensures !Rules.Matches(ServiceRule(Rules.Exact("my-service")), ServiceSpan(None)).matched
    ensures !Rules.Matches(ServiceRule(Rules.Regex(s => Contains(s, "my-service"))), ServiceSpan(None)).matched
    ensures !Rules.Matches(ServiceRule(Rules.Callable(s => Rules.Returned(Contains(s, "service")))), ServiceSpan(None)).matched
    ensures Rules.Matches(ServiceRule(Rules.Exact("my-service")), ServiceSpan(Some("my-service"))).matched
    ensures !Rules.Matches(ServiceRule(Rules.Exact("my_service")), ServiceSpan(Some("my-service"))).matched
    ensures Rules.Matches(ServiceRule(Rules.Regex(s => StartsWith(s, "my-"))), ServiceSpan(Some("my-service"))).matched
    ensures Rules.Matches(ServiceRule(Rules.Regex(s => StartsWith(s, "my_") || StartsWith(s, "my-"))), ServiceSpan(Some("my_service"))).matched
    ensures !Rules.Matches(ServiceRule(Rules.Regex(s => StartsWith(s, "my_"))), ServiceSpan(Some("my-service"))).matched
    ensures !Rules.Matches(ServiceRule(Rules.Callable(s => Rules.Raised)), ServiceSpan(Some("my-service"))).matched
  {
  }

  /** Service regular expressions searched anywhere in the service, and
      callables testing for a substring. */
  lemma ServiceSearchTable()
    ensures Rules.Matches(ServiceRule(Rules.Regex(s => Contains(s, "my-service"))), ServiceSpan(Some("my-service"))).matched
    ensures Rules.Matches(ServiceRule(Rules.Regex(s => Contains(s, "my"))), ServiceSpan(Some("my-service"))).matched
    ensures Rules.Matches(ServiceRule(Rules.Regex(s => Contains(s, "my-service") || Contains(s, "another-service"))), ServiceSpan(Some("my-service"))).matched
    ensures Rules.Matches(ServiceRule(Rules.Regex(s => Contains(s, "my-service") || Contains(s, "another-service"))), ServiceSpan(Some("another-service"))).matched
    ensures Rules.Matches(ServiceRule(Rules.Callable(s => Rules.Returned(Contains(s, "service")))), ServiceSpan(Some("my-service"))).matched
    ensures !Rules.Matches(ServiceRule(Rules.Callable(s => Rules.Returned(!Contains(s, "service")))), ServiceSpan(Some("my-service"))).matched
  {
    assert StartsWith("my-service", "my-service") && StartsWith("my-service", "my");
    assert StartsWith("another-service", "another-service");
    assert Contains("my-service", "service") by {
      assert StartsWith("my-service"[3..], "service");
    }
  }

  /** A rule matches only when both of its patterns do, whatever its rate. */
  lemma CombinedMatchTable()
    ensures Rules.Matches(Rules.SamplingRule(1.0, Rules.Regex(s => StartsWith(s, "my-")), Rules.Exact("test.span")),
                          Span(0, "test.span", Some("my-service"), None)).matched
    ensures Rules.Matches(Rules.SamplingRule(0.0, Rules.Regex(s => StartsWith(s, "my-")), Rules.Exact("test.span")),
                          Span(0, "test.span", Some("my-service"), None)).matched
    ensures !Rules.Matches(Rules.SamplingRule(1.0, Rules.Regex(s => StartsWith(s, "my-")), Rules.Exact("test_span")),
                           Span(0, "test.span", Some("my-service"), None)).matched
    ensures !Rules.Matches(Rules.SamplingRule(1.0, Rules.Regex(s => StartsWith(s, "service-")), Rules.Exact("test.span")),
                           Span(0, "test.span", Some("my-service"), None)).matched
  {
    assert !StartsWith("my-service", "service-") by {
      assert "my-service"[..8][0] != "service-"[0];
    }
  }

  /** The keys of the per-service table. */
  lemma KeyTable()
    ensures ByService.Key() == "service:,env:"
    ensures ByService.Key(Some("mcnulty")) == "service:mcnulty,env:"
    ensures ByService.Key(env := Some("test")) == "service:,env:test"
    ensures ByService.Key(Some("mcnulty"), Some("test")) == "service:mcnulty,env:test"
  {
  }

  /** A rule that matches no span and one that matches every span; whether
      a matching rule keeps a trace is up to the keep test of the case. */
  function NoMatch(rate: real): Rules.SamplingRule
  {
    Rules.SamplingRule(rate, Rules.NoRule, Rules.Callable(s => Rules.Returned(false)))
  }

  function AnyMatch(rate: real): Rules.SamplingRule
  {
    Rules.SamplingRule(rate, Rules.NoRule, Rules.NoRule)
  }

  function RuleSampler(rules: seq<Rules.SamplingRule>, defaultRate: real): Datadog.DatadogSampler
  {
    Datadog.DatadogSampler(rules, Datadog.DefaultRateLimit, Datadog.RuleDefault(AnyMatch(defaultRate)))
  }

  const Root: Span := Span(7, "span", Some(""), None)
  const Allow: Datadog.LimiterAnswer := Datadog.LimiterAnswer(true, 1.0)
  const Deny: Datadog.LimiterAnswer := Datadog.LimiterAnswer(false, 1.0)

  /** The decision table: no rule matches and the default rate 1 keeps; the
      first matching rule keeps, also when later matching rules would drop;
      the first matching rule drops, so the limit metric is absent; a
      default rate of 0 drops. */
  lemma DecisionTable()
    ensures var d := Datadog.Sample(RuleSampler([NoMatch(0.5), NoMatch(0.5), NoMatch(0.5)], 1.0), Root, (t, r) => true, Allow);
            d.priority == Datadog.AutoKeep && d.ruleRate == Some(1.0) && d.limitRate == Some(1.0)
    ensures var d := Datadog.Sample(RuleSampler([NoMatch(0.5), NoMatch(0.5), AnyMatch(0.5)], 1.0), Root, (t, r) => true, Allow);
            d.priority == Datadog.AutoKeep && d.ruleRate == Some(0.5) && d.limitRate == Some(1.0)
    ensures var d := Datadog.Sample(RuleSampler([NoMatch(0.5), AnyMatch(0.5), NoMatch(0.5)], 1.0), Root, (t, r) => false, Allow);
            d.priority == Datadog.AutoReject && d.ruleRate == Some(0.5) && d.limitRate == None
    ensures var d := Datadog.Sample(RuleSampler([AnyMatch(0.5), AnyMatch(0.0), AnyMatch(0.0)], 1.0), Root, (t, r) => true, Allow);
            d.priority == Datadog.AutoKeep && d.ruleRate == Some(0.5) && d.limitRate == Some(1.0)
    ensures var d := Datadog.Sample(RuleSampler([], 0.0), Root, (t, r) => true, Allow);
            d.priority == Datadog.AutoReject && d.ruleRate == Some(0.0) && d.limitRate == None && d.sampled
  {
  }

  /** A single rule for "test.span": kept when the limiter allows, rejected
      without a limit metric when it denies, and at rate 0 rejected without
      asking the limiter. */
  lemma LimiterTable()
    ensures var d := Datadog.Sample(RuleSampler([Rules.SamplingRule(1.0, Rules.NoRule, Rules.Exact("test.span"))], 1.0),
                                    Span(7, "test.span", Some(""), None), (t, r) => true, Allow);
            d.priority == Datadog.AutoKeep && d.ruleRate == Some(1.0) && d.rulesTried == 1 && d.limiterCalls == 1
    ensures var d := Datadog.Sample(RuleSampler([Rules.SamplingRule(1.0, Rules.NoRule, Rules.Exact("test.span"))], 1.0),
                                    Span(7, "test.span", Some(""), None), (t, r) => true, Deny);
            d.priority == Datadog.AutoReject && d.ruleRate == Some(1.0) && d.limitRate == None && d.limiterCalls == 1
    ensures var d := Datadog.Sample(RuleSampler([Rules.SamplingRule(0.0, Rules.NoRule, Rules.Exact("test.span"))], 1.0),
                                    Span(7, "test.span", Some(""), None), (t, r) => true, Allow);
            d.priority == Datadog.AutoReject && d.ruleRate == Some(0.0) && d.limiterCalls == 0
  {
  }

  /** Non-rule entries in `rules` are refused with a TypeError, and the rules
      are kept in the order given. */
  lemma InitTable()
    ensures Datadog.NewDatadogSampler(Some([Datadog.OtherValue])) == Err(NotASamplingRule(0))
    ensures Datadog.NewDatadogSampler().Ok? && Datadog.NewDatadogSampler().value.rules == []
    ensures Datadog.NewDatadogSampler().value.rateLimit == Datadog.DefaultRateLimit
    ensures Datadog.NewDatadogSampler().value.defaultSampler.ByServiceDefault?
    ensures Datadog.NewDatadogSampler(Some([Datadog.RuleValue(AnyMatch(1.0))])).value.rules == [AnyMatch(1.0)]
    ensures Datadog.NewDatadogSampler(Some([Datadog.RuleValue(AnyMatch(1.0))])).value.rateLimit == Datadog.DefaultRateLimit
    ensures Datadog.NewDatadogSampler(Some([Datadog.RuleValue(AnyMatch(1.0))])).value.defaultSampler.ByServiceDefault?
    ensures Datadog.NewDatadogSampler(rateLimit := Some(10)).value.rateLimit == 10
    ensures Datadog.NewDatadogSampler(rateLimit := Some(10)).value.defaultSampler.ByServiceDefault?
    ensures Datadog.NewDatadogSampler(defaultSampleRate := Some(0.5)).value.rateLimit == Datadog.DefaultRateLimit
    ensures Datadog.NewDatadogSampler(defaultSampleRate := Some(0.5)).value.defaultSampler
            == Datadog.RuleDefault(Rules.SamplingRule(0.5, Rules.NoRule, Rules.NoRule))
    ensures var rules := [AnyMatch(1.0), Rules.SamplingRule(0.5, Rules.Exact("test"), Rules.NoRule),
                          Rules.SamplingRule(0.25, Rules.NoRule, Rules.Exact("flask.request"))];
            Datadog.NewDatadogSampler(Some([Datadog.RuleValue(rules[0]), Datadog.RuleValue(rules[1]), Datadog.RuleValue(rules[2])])).Ok?
            && Datadog.NewDatadogSampler(Some([Datadog.RuleValue(rules[0]), Datadog.RuleValue(rules[1]), Datadog.RuleValue(rules[2])])).value.rules
               == rules
  {
  }
}
